=== FILE: README.md ===
# Focus Flow core in Dafny

Focus Flow is a single-page Pomodoro study timer. The user picks a task, runs a countdown
session on it, rates their focus afterwards and reads a few aggregate numbers. Everything
lives in memory in one `FocusFlowApp` object. This project models the non-visual core of
that object as pure transitions over an explicit `AppState` value:

- **Session engine** (`session_engine.dfy`, module `SessionEngine`): staging a task,
  choosing a duration, starting, the one-second tick, pause, skip, complete, rating and
  dismissing the rating dialog. The interval callback becomes the explicit `Tick` step.
  The scheduled interval becomes the flag `timerRunning`. `startTimer` clears the old
  interval before it sets a new one, so one flag is enough.
- **Countdown runs** (`countdown.dfy`, module `Countdown`): what any number of ticks
  does to a started session.
- **Task store** (`task_store.dfy`, module `TaskStore`): save (add or edit), delete and
  reset, including `String.prototype.trim` and the fresh-id rule.
- **Analytics** (`analytics.dfy`, module `Analytics`): completion rate, average focus,
  streak and peak window. The hour of day is a parameter.
- **Timer text** (`timer_text.dfy`, module `TimerText`): the `mm:ss` string, plus a reader
  for it that proves the text determines the remaining seconds.
- **Controller** (`controller.dfy`, module `Controller`): every user action or timer
  firing is an `Event`, handled by `Step`. This module holds the state invariant and the
  "at most one active task" result.
- `model.dfy` (module `Model`) holds the records and the seeded start-up state.
  `common.dfy` (module `Common`) holds `Option` and `Result`.

`currentTask` and a session's `task` are object references in the source. The model gives
every task object a `handle`, drawn from a counter (`nextHandle`). A status write through
`currentTask` reaches the list entry with that handle. Once the object has been deleted,
the write reaches nothing, even if a newly added task has been given the same id.

Where the source throws (it writes through a `null` `currentTask`, or it edits a task that
is no longer listed), the model keeps the writes made before the throw. `Controller.Valid` shows
that the `null` cases cannot occur: an active engine, or a positive count, always has a
current task. It also shows that an idle engine never holds a positive count.

## Model

| member | source | states |
|---|---|---|
| `Model.Init` | app.js:5-64 | The start-up state is idle with no interval and no history. It holds five pending tasks with distinct ids and distinct objects. |
| `Model.SeedTasks` | app.js:18-64 | Five tasks, where position i is object i with id i + 1, all pending. |
| `Model.FindById` | app.js:255 | Gives the position of the first task with the id, or none exactly when no task has it. |
| `Model.SetStatus` | app.js:276 | A status write through the current-task reference (also at app.js:333 and 345): the task with that object gets the new status, the rest keep theirs, and the length is kept. |
| `TimerText.NatToString` | app.js:304 | `toString` of a non-negative number: at least one digit, only digits, no leading zero, one digit below 10 and at most two below 100. |
| `TimerText.IntToString` | app.js:304 | `toString` of any integer: non-empty, and either all digits (n >= 0) or a minus sign followed by at least one digit (n < 0). |
| `TimerText.IntToStringValue` | app.js:304 | The digits of `toString` spell the number: they read back to n, or to -n after the minus sign. |
| `TimerText.PadStart2` | app.js:304 | `padStart(2, '0')`: text of two or more characters is kept. Shorter text becomes two characters, ending in the original and starting with zeros. |
| `TimerText.JsRem` | app.js:303 | JavaScript `%`: the dividend is the divisor times the quotient truncated toward zero, plus the remainder, so the remainder keeps the dividend's sign. It lies in 0..59 for a non-negative count and in -59..0 for a negative one. |
| `TimerText.FormatTime` | app.js:301-305 | For 0 <= t < 6000 the text is two digits, a colon and two digits. |
| `TimerText.FormatParseRoundTrip` | app.js:301-305 | Reading the text back gives t for every t >= 0, so no count is shown ambiguously. |
| `TimerText.FormatTimeInjective` | app.js:301-305 | Two different non-negative counts never show the same text. |
| `TimerText.NegativeTimeText` | app.js:302-304 | Floored minutes and a truncating remainder show -61 seconds as `-2:-1`. |
| `TaskStore.Trim` | app.js:489-493 | The result has no whitespace at either end. It is empty exactly when the input is all whitespace. Otherwise it is the slice of the input between the leading and trailing whitespace. |
| `TaskStore.TrimIdempotent` | app.js:489-493 | Trimming twice is the same as trimming once. |
| `TaskStore.MaxId` | app.js:507 | The result is at least 0 and at least every id. It is 0 or the id of some task. |
| `TaskStore.Overwrite` | app.js:488-504 | `Object.assign` of the form onto an edited task keeps its object and id, takes the trimmed name and tip and the other form values, and sets the status to pending. |
| `TaskStore.SaveTask` | app.js:483-515 | A blank trimmed name is refused, and only that is `EmptyName`. Adding appends one pending task with a new object and the id one past the largest id (1 for an empty list), which is above every existing id, and leaves the earlier tasks as they were. Editing the first task with the id keeps its object and id, takes the form's values, resets the status to pending and leaves the other tasks alone. Editing an unlisted id is refused. Nothing but the task list and the handle counter changes: the engine and the history stay as they were. |
| `TaskStore.Without` | app.js:522 | The filtered list is never longer than the original. |
| `TaskStore.WithoutMembers` | app.js:522 | A task is kept exactly when it was listed and its id differs. |
| `TaskStore.WithoutKeepsOrder` | app.js:522 | Filtering a concatenation is concatenating the filtered parts, so the kept tasks stay in order. |
| `TaskStore.WithoutAbsent` | app.js:522 | A list that lacks the id comes through unchanged. |
| `TaskStore.DeleteTask` | app.js:517-526 | A declined confirmation changes nothing. A confirmed one leaves exactly the filtered list: the other tasks in their original order, each once, with no task of that id. Nothing else changes, even while a session runs on one of them. |
| `TaskStore.AllPending` | app.js:534-536 | Same length, and each task is the original with its status set to pending. |
| `TaskStore.ResetTasks` | app.js:532-541 | Once confirmed, every task is pending with its other fields kept, and the history is empty. The engine is not touched. |
| `SessionEngine.SelectTask` | app.js:254-258 | Only `currentTask` can change. It stays put when no task has the id or the first task with it is completed. Otherwise it becomes that task's object, whether or not a session is running. |
| `SessionEngine.ChooseDuration` | app.js:158-165 | A duration click changes the chosen minutes and nothing else. |
| `SessionEngine.CloseDurationModal` | app.js:543-548 | The chosen minutes go back to 25 and a staged task stays staged. |
| `SessionEngine.StartSession` | app.js:270-283 | With no current task nothing changes. Otherwise: the count is the chosen minutes times 60; the engine is active, unpaused and has an interval; only the current task's status becomes active; the chosen minutes go back to 25. |
| `SessionEngine.SessionComplete` | app.js:343-361 | The interval stops and the engine stays active. The current task, and no other, is marked completed. Exactly one unrated record with the current `selectedDuration` is appended after the unchanged history. |
| `SessionEngine.Tick` | app.js:288-298 | Unless the interval runs, the engine is unpaused and the count is positive, a tick changes nothing at all. Otherwise the count drops by exactly one and nothing else changes, except on the tick that reaches zero: that tick stops the interval and appends exactly one record. The count never goes below zero. |
| `SessionEngine.TogglePause` | app.js:319-327 | Only an active engine flips `isPaused`. Nothing else changes. |
| `SessionEngine.TogglePauseTwice` | app.js:319-322 | Two toggles give back the original state. |
| `SessionEngine.ResetSession` | app.js:386-391 | Leaves the idle engine fields and keeps tasks, history and the interval. |
| `SessionEngine.SkipSession` | app.js:329-335 | An inactive engine is unchanged. Otherwise the interval stops, the engine is idle, only the current task returns to pending, and the history is unchanged. |
| `SessionEngine.CompleteSession` | app.js:337-341 | An inactive engine is unchanged. Otherwise the engine stays active and the interval stops. Earlier records are unchanged and one unrated record is appended. The current task is completed. |
| `SessionEngine.CloseSessionModal` | app.js:378-384 | Dismissing the rating dialog leaves the engine idle and the tasks and records untouched, so the last record stays unrated. |
| `SessionEngine.SaveSessionRating` | app.js:363-376 | Only the last record changes: its rating and notes are set. With no records nothing is written. The engine ends idle and the tasks are untouched. |
| `SessionEngine.SkipVersusComplete` | app.js:329-357 | For an active session, skipping keeps the history and leaves the task pending. Completing adds one record and leaves the task completed. |
| `SessionEngine.RatingAttachesToNewRecord` | app.js:343-376 | A rating right after a completion lands on the record that completion appended. The earlier history is untouched. |
| `SessionEngine.SecondRatingOverwrites` | app.js:368-371 | A second rating without a new session replaces the first. It is not refused. |
| `Countdown.TicksAtMostOneRecord` | app.js:288-298 | Any run of ticks (`Countdown.Ticks`) adds at most one record, and none without an interval. The run that adds it ends with the interval stopped. |
| `Countdown.TicksWhenStopped` | app.js:404-409 | Once the interval is cleared, any number of ticks change nothing, so completion never repeats. |
| `Countdown.TicksWhenPaused` | app.js:289 | While paused, any number of ticks change nothing. |
| `Countdown.TicksBeforeZero` | app.js:288-293 | Fewer ticks than the count take exactly that many seconds off and change nothing else. |
| `Countdown.TicksReachZero` | app.js:288-298 | With at least as many ticks as the count, the result is the completion stamped with the time of the tick that reached zero. |
| `Countdown.TicksCompletion` | app.js:288-298 | After such a run the count is 0, the interval is stopped, one record is appended and the task is completed. |
| `Countdown.StartedSessionCounting` | app.js:270-298 | A session started for N > 0 minutes, after fewer than N*60 ticks, has a positive count of N*60 minus the ticks, no new record and a running interval. |
| `Countdown.StartedSessionCompletes` | app.js:270-357 | From the N*60-th tick on, the count is 0, the interval is stopped, the engine is still active, and exactly one unrated record is appended. Its duration is 25, not N. |
| `Countdown.StartedSessionTaskCompleted` | app.js:270-357 | By then the session's task, and only it, is completed. |
| `Analytics.RoundDiv` | app.js:560 | `Math.round(p / q)`: the result is the integer nearest p/q, with halves rounded up. |
| `Analytics.CompletionRate` | app.js:558-560 | The result is 0 with no tasks. Otherwise it is the rounded value of 100 times the number of records over the number of tasks. |
| `Analytics.CompletionRateBounded` | app.js:558-560 | The rate stays in 0..100 while records do not outnumber tasks. |
| `Analytics.CompletionRateFiveTwo` | app.js:558-560 | Five tasks and two records give 40. |
| `Analytics.CompletionRateOverHundred` | app.js:558-560 | Two tasks and three records give 150, because records are counted, not completed tasks. |
| `Analytics.FocusSumAppend` | app.js:563 | The `reduce` sum (`Analytics.FocusSum`) over two joined lists is the sum of the two sums. |
| `Analytics.FocusValue` | app.js:563 | An unrated record counts as 8, and so does a rating of 0. Any other rating counts as itself. |
| `Analytics.AverageFocus` | app.js:562-564 | With no records the result is none (`'-'`). Otherwise it is the rounded mean of the focus values. |
| `Analytics.FocusSumBounds` | app.js:563 | With ratings on the 1..10 scale, the focus sum lies between n and 10n. |
| `Analytics.AverageFocusOnScale` | app.js:562-564 | With ratings on the 1..10 scale, the shown average lies in 1..10. |
| `Analytics.StudyStreak` | app.js:575 | The streak is at least 1 and at least the number of records, and it equals one of them. |
| `Analytics.PeakWindowAt` | app.js:579-584 | Morning exactly for hours below 12. Afternoon exactly for 12..16. Evening exactly from 17. |
| `Analytics.PeakWindowMonotone` | app.js:579-584 | A later hour never falls in an earlier window. |
| `Analytics.Analyze` | app.js:556-577 | The panel shows rate 0 without tasks, and otherwise 100 times the number of records over the number of tasks, rounded to the nearest integer. The average is `'-'` exactly when there is no record, and otherwise the rounded mean of the focus values. The streak is 1 or the number of records, whichever is larger. The window is Morning exactly before 12 and Evening exactly from 17. |
| `Controller.InitValid` | app.js:5-64 | The start-up state satisfies the invariant. |
| `Controller.Step` | app.js:93-197 | An event never lowers the handle counter. It adds at most one record, and only a timer firing or the complete button adds one. Saving, deleting and resetting tasks leave the engine fields alone, including the chosen minutes. Saving and deleting keep the session history. |
| `Controller.WithoutKeepsUnique` | app.js:522 | Filtering keeps task objects and ids distinct. |
| `Controller.SaveTaskKeepsValid` | app.js:502-511 | A successful save keeps objects and ids distinct and the handle counter ahead. |
| `Controller.SaveKeepsActiveOnlyCurrent` | app.js:494-511 | Saving the task form never leaves an `active` task outside a running session: an edited task becomes pending and an added one starts pending. |
| `Controller.StepKeepsValid` | app.js:254-548 | Every event, in any order, keeps the invariant: distinct objects and ids, the handle counter ahead, a current task whenever the engine is active or counting, no count left on an idle engine, and pausing only while active. |
| `Controller.DisciplinedStepKeepsActiveOnlyCurrent` | app.js:254-391 | Suppose tasks are picked only while no session runs and the rating dialog is answered only after the interval stops. Then an active task is always the current task of a running session. |
| `Controller.DisciplinedRunOneActive` | app.js:254-541 | Under that discipline, any run of events from such a state has at most one active task. |
| `Controller.OneActiveFromStart` | app.js:5-541 | The same holds for every disciplined run from start-up. |
| `Controller.SelectDuringSessionTwoActive` | app.js:254-276 | Without the discipline, picking another task during a session and starting again leaves two tasks active. |
| `Controller.DeleteRunningTask` | app.js:517-526 | Deleting the running task is not refused. The engine stays active on an unlisted object, and completing it adds a record but changes no listed task. |
| `Controller.ResetClearsAnalytics` | app.js:532-564 | After a confirmed reset the average shows `'-'`, the rate is 0 and the streak is 1. |

## Behaviour worth knowing

The model does what the code does in each of these places:

- The completion rate divides the number of session records by the number of tasks. It
  does not count completed tasks, so it can exceed 100 (app.js:558-560).
- Editing a task resets its status to pending, even for the task of a running session
  (app.js:494, 504).
- No command reports an error kind. A blank name shows an alert and changes nothing.
  Skip, pause and complete on an idle engine do nothing. Starting with no staged task
  does nothing.
- A second rating overwrites the first (app.js:368-371).
- Deleting the current task is not guarded (app.js:522). A missing id deletes nothing.
- `selectTask` does not check `isActive` (app.js:254-258). "At most one active task"
  therefore holds only under the discipline in `Controller.Disciplined`.
- An idle engine may still have a staged `currentTask`: selecting stages a task without
  starting it, and cancelling the duration dialog keeps it staged.
- The recorded `duration` is the value `selectedDuration` holds at completion. That is 25
  unless a duration is clicked mid-session, because `startSession` resets it
  (app.js:273, 278, 354, 547).
- `resetTasks` does not stop a running session, and `resetSession` does not clear the
  interval.

## Left out

- DOM reads and writes, the modals' visibility, `renderTasks`/`createTaskElement`,
  `updateUI` (button states, the session counter, the `25:00` placeholder), status text,
  themes, `updateDate`, `toggleAnalytics`, `openTaskModal`/`editTask`/`closeEditModal`:
  these are view code. The dialog's edit target enters `SaveTask` as the `editing`
  parameter.
- `setupCharts`: hard-coded data drawn by a foreign charting library.
- `updateProgressRing` and `resetProgressRing`: floating-point ring geometry.
- `setInterval`/`clearInterval` scheduling: the tick is an explicit step, and the
  interval is the `timerRunning` flag.
- The tip rotation interval and `currentTipIndex`: display only.
- The `visibilitychange` handler: it only redraws.
- `new Date()` and `getHours()`: the completion time (`now`) and the hour are integer
  parameters.
- `parseInt` on DOM strings: integers are taken directly.
- `TaskStore.SaveTask`: a blank duration field, which `parseInt` turns into `NaN`, is not
  represented.
- `Analytics.CompletionRate`: computed on exact rationals. The source divides and then
  multiplies in binary floating point. When the exact percentage ends in .5, the
  computed product can fall just below it and round down (23 records over 40 tasks is
  57.5 exactly).
- The duration menu's values and the slider's range come from the page markup, which is
  not part of this model. `ChooseDuration` and `SaveSessionRating` accept any integer.
- A session record's `task` is kept as the task object's handle. The analytics never
  read it.

=== FILE: analytics.dfy ===
/** The numbers `updateAnalytics` shows (app.js:556-584), as pure functions of the
    task list, the session history and the hour of day. */
module Analytics {
  import opened Common
  import opened Model

  /** What an unrated record contributes to the focus average (`s.focusRating || 8`). */
  const UnratedFocus: int := 8

  datatype PeakWindow = Morning | Afternoon | Evening

  /** The analytics panel: `None` as average focus is the source's `'-'`. */
  datatype Snapshot = Snapshot(completionRate: int, avgFocus: Option<int>, studyStreak: int, peakWindow: PeakWindow)

  /** `Math.round(p / q)` for a positive `q`: the nearest integer, halves rounded up. */
  function RoundDiv(p: int, q: int): (r: int)
    requires q > 0
    ensures 2 * q * r - q <= 2 * p < 2 * q * r + q
  {
    var d := 2 * q;
    var n := 2 * p + q;
    assert n == d * (n / d) + n % d;
    n / d
  }

  /** The completion percentage. The numerator is the number of session records,
      not the number of completed tasks, so it can pass 100. */
  function CompletionRate(tasks: seq<Task>, sessions: seq<Session>): (r: int)
    ensures |tasks| == 0 ==> r == 0
    ensures |tasks| > 0 ==> 2 * |tasks| * r - |tasks| <= 200 * |sessions| < 2 * |tasks| * r + |tasks|
  {
    if |tasks| > 0 then RoundDiv(100 * |sessions|, |tasks|) else 0
  }

  /** A record's contribution to the focus average: its rating, or 8 when it has none
      or the rating is 0 (both are falsy for `||`). */
  function FocusValue(s: Session): (v: int)
    ensures s.focusRating.None? ==> v == UnratedFocus
    ensures s.focusRating == Some(0) ==> v == UnratedFocus
    ensures s.focusRating.Some? && s.focusRating.value != 0 ==> v == s.focusRating.value
  {
    match s.focusRating
    case None => UnratedFocus
    case Some(x) => if x == 0 then UnratedFocus else x
  }

  /** The `reduce` sum of focus values. */
  function FocusSum(ss: seq<Session>): int
  {
    if |ss| == 0 then 0 else FocusValue(ss[0]) + FocusSum(ss[1..])
  }

  /** The `reduce` is a plain sum: the records can be split anywhere and the parts added. */
  lemma {:induction false} FocusSumAppend(a: seq<Session>, b: seq<Session>)
    ensures FocusSum(a + b) == FocusSum(a) + FocusSum(b)
    decreases |a|
  {
    if |a| > 0 {
      assert (a + b)[0] == a[0] && (a + b)[1..] == a[1..] + b;
      FocusSumAppend(a[1..], b);
    } else {
      assert a + b == b;
    }
  }

  /** The rounded mean focus, or `None` (shown as `'-'`) when there is no record. */
  function AverageFocus(ss: seq<Session>): (r: Option<int>)
    ensures r.None? <==> |ss| == 0
    ensures r.Some? ==> 2 * |ss| * r.value - |ss| <= 2 * FocusSum(ss) < 2 * |ss| * r.value + |ss|
  {
    if |ss| > 0 then Some(RoundDiv(FocusSum(ss), |ss|)) else None
  }

  /** `Math.max(1, sessions.length)`. */
  function StudyStreak(ss: seq<Session>): (r: int)
    ensures r >= 1 && r >= |ss|
    ensures r == 1 || r == |ss|
  {
    if |ss| > 1 then |ss| else 1
  }

  /** `getPeakWindow` with the hour passed in. */
  function PeakWindowAt(hour: int): (w: PeakWindow)
    ensures w == Morning <==> hour < 12
    ensures w == Afternoon <==> 12 <= hour < 17
    ensures w == Evening <==> 17 <= hour
  {
    if hour < 12 then Morning else if hour < 17 then Afternoon else Evening
  }

  /** Position of a window in the day. */
  function WindowRank(w: PeakWindow): nat
  {
    match w
    case Morning => 0
    case Afternoon => 1
    case Evening => 2
  }

  /** Later hours never fall in an earlier window. */
  lemma PeakWindowMonotone(h1: int, h2: int)
    requires h1 <= h2
    ensures WindowRank(PeakWindowAt(h1)) <= WindowRank(PeakWindowAt(h2))
  {
  }

  /** The whole panel for the current state at the given hour. */
  function Analyze(s: AppState, hour: int): (r: Snapshot)
    ensures |s.tasks| == 0 ==> r.completionRate == 0
    ensures |s.tasks| > 0 ==>
      2 * |s.tasks| * r.completionRate - |s.tasks| <= 200 * |s.sessions| < 2 * |s.tasks| * r.completionRate + |s.tasks|
    ensures r.avgFocus.None? <==> |s.sessions| == 0
    ensures r.avgFocus.Some? ==>
      2 * |s.sessions| * r.avgFocus.value - |s.sessions| <= 2 * FocusSum(s.sessions) < 2 * |s.sessions| * r.avgFocus.value + |s.sessions|
    ensures r.studyStreak >= 1 && r.studyStreak >= |s.sessions|
    ensures r.studyStreak == 1 || r.studyStreak == |s.sessions|
    ensures r.peakWindow == Morning <==> hour < 12
    ensures r.peakWindow == Evening <==> hour >= 17
  {
    Snapshot(CompletionRate(s.tasks, s.sessions), AverageFocus(s.sessions), StudyStreak(s.sessions), PeakWindowAt(hour))
  }

  /** The rate stays within 0..100 while there are no more records than tasks. */
  lemma CompletionRateBounded(tasks: seq<Task>, sessions: seq<Session>)
    requires |sessions| <= |tasks|
    ensures 0 <= CompletionRate(tasks, sessions) <= 100
  {
    var n, r := |tasks|, CompletionRate(tasks, sessions);
    if n > 0 {
      if r < 0 {
        MulMonotone(n, r + 1, 0);
      }
      if r > 100 {
        MulMonotone(n, 101, r);
      }
    }
  }

  /** Five tasks and two records give 40%, whatever the statuses say. */
  lemma CompletionRateFiveTwo(tasks: seq<Task>, sessions: seq<Session>)
    requires |tasks| == 5 && |sessions| == 2
    ensures CompletionRate(tasks, sessions) == 40
  {
  }

  /** Because records are counted instead of completed tasks, two tasks with three
      records show 150%. */
  lemma CompletionRateOverHundred(tasks: seq<Task>, sessions: seq<Session>)
    requires |tasks| == 2 && |sessions| == 3
    ensures CompletionRate(tasks, sessions) == 150
  {
  }

  lemma MulMonotone(n: int, a: int, b: int)
    requires n > 0 && a <= b
    ensures n * a <= n * b
  {
  }

  /** Every record is unrated or carries a rating the 1..10 slider can produce (a
      0, which the source also treats as unrated, is allowed too). */
  predicate RatingsOnScale(ss: seq<Session>)
  {
    forall i :: 0 <= i < |ss| ==> ss[i].focusRating.None? || 0 <= ss[i].focusRating.value <= 10
  }

  lemma {:induction false} FocusSumBounds(ss: seq<Session>)
    requires RatingsOnScale(ss)
    ensures |ss| <= FocusSum(ss) <= 10 * |ss|
    decreases |ss|
  {
    if |ss| > 0 {
      assert RatingsOnScale(ss[1..]) by {
        forall i | 0 <= i < |ss| - 1
          ensures ss[1..][i].focusRating.None? || 0 <= ss[1..][i].focusRating.value <= 10
        {
          assert ss[1..][i] == ss[i + 1];
        }
      }
      FocusSumBounds(ss[1..]);
      assert 1 <= FocusValue(ss[0]) <= 10;
    }
  }

  /** With every rating on the slider's 1..10 scale (unrated records count as 8) the
      shown average is on that scale too. */
  lemma AverageFocusOnScale(ss: seq<Session>)
    requires |ss| > 0 && RatingsOnScale(ss)
    ensures 1 <= AverageFocus(ss).value <= 10
  {
    var n, a := |ss|, AverageFocus(ss).value;
    FocusSumBounds(ss);
    if a < 1 {
      MulMonotone(n, a, 0);
    }
    if a > 10 {
      MulMonotone(n, 11, a);
    }
  }
}

=== FILE: common.dfy ===
/** Optional values and results shared by every module of the model. */
module Common {

  /** A value that may be absent; stands for JavaScript's `null`. */
  datatype Option<+T> = None | Some(value: T)

  /** The outcome of a command that can be refused. */
  datatype Result<+T, +E> = Success(value: T) | Failure(error: E)
}

=== FILE: controller.dfy ===
/** The app as one state machine: every user action or timer firing is an `Event`,
    handled by one transition (app.js:93-197 wires them). This module states the
    invariants the transitions keep and the discipline under which at most one task
    is active. */
module Controller {
  import opened Common
  import opened Model
  import TaskStore
  import SessionEngine
  import Analytics

  datatype Event =
    | ClickSelect(id: int)
    | ClickDuration(minutes: int)
    | CancelDuration
    | ConfirmDuration
    | TimerFires(now: int)
    | ClickPause
    | ClickSkip
    | ClickComplete(now: int)
    | SubmitRating(rating: int, notes: string)
    | SkipRating
    | SubmitTaskForm(editing: Option<int>, form: TaskStore.TaskForm)
    | ConfirmDelete(id: int, confirmed: bool)
    | ConfirmReset(confirmed: bool)

  /** The handler each event reaches. A refused save leaves the state as it was. */
  function Step(s: AppState, e: Event): (r: AppState)
    // handles are never reused
    ensures r.nextHandle >= s.nextHandle
    // an event adds at most one record, and only the countdown or the complete button adds one
    ensures |r.sessions| <= |s.sessions| + 1
    ensures |r.sessions| > |s.sessions| ==> e.TimerFires? || e.ClickComplete?
    // the task-list commands never touch the session engine
    ensures e.SubmitTaskForm? || e.ConfirmDelete? || e.ConfirmReset? ==>
      && r.isActive == s.isActive && r.isPaused == s.isPaused && r.currentTask == s.currentTask
      && r.timeLeft == s.timeLeft && r.timerRunning == s.timerRunning
      && r.selectedDuration == s.selectedDuration
    // saving and deleting a task keep the session history
    ensures e.SubmitTaskForm? || e.ConfirmDelete? ==> r.sessions == s.sessions
  {
    match e
    case ClickSelect(id) => SessionEngine.SelectTask(s, id)
    case ClickDuration(minutes) => SessionEngine.ChooseDuration(s, minutes)
    case CancelDuration => SessionEngine.CloseDurationModal(s)
    case ConfirmDuration => SessionEngine.StartSession(s)
    case TimerFires(now) => SessionEngine.Tick(s, now)
    case ClickPause => SessionEngine.TogglePause(s)
    case ClickSkip => SessionEngine.SkipSession(s)
    case ClickComplete(now) => SessionEngine.CompleteSession(s, now)
    case SubmitRating(rating, notes) => SessionEngine.SaveSessionRating(s, rating, notes)
    case SkipRating => SessionEngine.CloseSessionModal(s)
    case SubmitTaskForm(editing, form) =>
      (match TaskStore.SaveTask(s, editing, form)
       case Success(t) => t
       case Failure(_) => s)
    case ConfirmDelete(id, confirmed) => TaskStore.DeleteTask(s, id, confirmed)
    case ConfirmReset(confirmed) => TaskStore.ResetTasks(s, confirmed)
  }

  function Run(s: AppState, es: seq<Event>): AppState
    decreases |es|
  {
    if |es| == 0 then s else Run(Step(s, es[0]), es[1..])
  }

  /** What every reachable state satisfies: task objects and ids are distinct, the
      handle counter is ahead of every task object, an active engine or a positive
      count always has a current task, an idle engine has no count left, and only an
      active engine can be paused. */
  predicate Valid(s: AppState)
  {
    && UniqueHandles(s.tasks)
    && UniqueIds(s.tasks)
    && (forall i :: 0 <= i < |s.tasks| ==> s.tasks[i].handle < s.nextHandle)
    && (s.isActive ==> s.currentTask.Some?)
    && (s.timeLeft > 0 ==> s.currentTask.Some?)
    && (!s.isActive ==> s.timeLeft == 0)
    && (s.isPaused ==> s.isActive)
  }

  lemma InitValid()
    ensures Valid(Init())
  {
  }

  lemma RestampedKeepsValid(s: AppState, tasks: seq<Task>, h: Handle, st: Status)
    requires Valid(s) && Restamped(s.tasks, tasks, h, st)
    ensures Valid(s.(tasks := tasks))
  {
    forall i, j | 0 <= i < j < |tasks| ensures tasks[i].handle != tasks[j].handle && tasks[i].id != tasks[j].id {
      assert tasks[i].handle == s.tasks[i].handle && tasks[i].id == s.tasks[i].id;
      assert tasks[j].handle == s.tasks[j].handle && tasks[j].id == s.tasks[j].id;
    }
    forall i | 0 <= i < |tasks| ensures tasks[i].handle < s.nextHandle {
      assert tasks[i].handle == s.tasks[i].handle;
    }
  }

  lemma TailUnique(ts: seq<Task>)
    requires |ts| > 0 && UniqueHandles(ts) && UniqueIds(ts)
    ensures UniqueHandles(ts[1..]) && UniqueIds(ts[1..])
    ensures forall t :: t in ts[1..] ==> t.handle != ts[0].handle && t.id != ts[0].id
  {
    forall t | t in ts[1..] ensures t.handle != ts[0].handle && t.id != ts[0].id {
      var k :| 0 <= k < |ts[1..]| && ts[1..][k] == t;
      assert ts[k + 1] == t;
    }
  }

  lemma ConsUnique(x: Task, rest: seq<Task>)
    requires UniqueHandles(rest) && UniqueIds(rest)
    requires forall t :: t in rest ==> t.handle != x.handle && t.id != x.id
    ensures UniqueHandles([x] + rest) && UniqueIds([x] + rest)
  {
    var r := [x] + rest;
    forall i, j | 0 <= i < j < |r| ensures r[i].handle != r[j].handle && r[i].id != r[j].id {
      assert r[j] == rest[j - 1];
      if i > 0 {
        assert r[i] == rest[i - 1];
      } else {
        assert rest[j - 1] in rest;
      }
    }
  }

  lemma {:induction false} WithoutKeepsUnique(ts: seq<Task>, id: int)
    requires UniqueHandles(ts) && UniqueIds(ts)
    ensures UniqueHandles(TaskStore.Without(ts, id)) && UniqueIds(TaskStore.Without(ts, id))
    decreases |ts|
  {
    if |ts| > 0 {
      var rest := TaskStore.Without(ts[1..], id);
      TailUnique(ts);
      WithoutKeepsUnique(ts[1..], id);
      if ts[0].id != id {
        assert TaskStore.Without(ts, id) == [ts[0]] + rest;
        TaskStore.WithoutMembers(ts[1..], id);
        ConsUnique(ts[0], rest);
      } else {
        assert TaskStore.Without(ts, id) == rest;
      }
    }
  }

  lemma SaveTaskKeepsValid(s: AppState, editing: Option<int>, form: TaskStore.TaskForm)
    requires Valid(s)
    ensures TaskStore.SaveTask(s, editing, form).Success? ==> Valid(TaskStore.SaveTask(s, editing, form).value)
  {
    var r := TaskStore.SaveTask(s, editing, form);
    if r.Success? {
      var t := r.value;
      if editing.None? {
        var n := |s.tasks|;
        forall i, j | 0 <= i < j < |t.tasks| ensures t.tasks[i].handle != t.tasks[j].handle && t.tasks[i].id != t.tasks[j].id {
          assert t.tasks[i] == s.tasks[i];
          if j < n {
            assert t.tasks[j] == s.tasks[j];
          }
        }
      } else {
        var k := FindById(s.tasks, editing.value).value;
        forall i, j | 0 <= i < j < |t.tasks| ensures t.tasks[i].handle != t.tasks[j].handle && t.tasks[i].id != t.tasks[j].id {
          assert t.tasks[i].handle == s.tasks[i].handle && t.tasks[i].id == s.tasks[i].id;
          assert t.tasks[j].handle == s.tasks[j].handle && t.tasks[j].id == s.tasks[j].id;
        }
        forall i | 0 <= i < |t.tasks| ensures t.tasks[i].handle < t.nextHandle {
          assert t.tasks[i].handle == s.tasks[i].handle;
        }
      }
    }
  }

  /** Every event keeps the invariant, whatever order the events come in. */
  lemma StepKeepsValid(s: AppState, e: Event)
    requires Valid(s)
    ensures Valid(Step(s, e))
  {
    match e
    case ClickSelect(id) =>
    case ClickDuration(minutes) =>
    case CancelDuration =>
    case ConfirmDuration =>
      if s.currentTask.Some? {
        var r := SessionEngine.StartSession(s);
        RestampedKeepsValid(s, r.tasks, s.currentTask.value, Active);
      }
    case TimerFires(now) =>
      var r := SessionEngine.Tick(s, now);
      if s.timerRunning && !s.isPaused && s.timeLeft == 1 {
        RestampedKeepsValid(s, r.tasks, s.currentTask.value, Completed);
      }
    case ClickPause =>
    case ClickSkip =>
      if s.isActive {
        RestampedKeepsValid(s, SessionEngine.SkipSession(s).tasks, s.currentTask.value, Pending);
      }
    case ClickComplete(now) =>
      if s.isActive {
        RestampedKeepsValid(s, SessionEngine.CompleteSession(s, now).tasks, s.currentTask.value, Completed);
      }
    case SubmitRating(rating, notes) =>
    case SkipRating =>
    case SubmitTaskForm(editing, form) =>
      SaveTaskKeepsValid(s, editing, form);
    case ConfirmDelete(id, confirmed) =>
      if confirmed {
        var r := TaskStore.DeleteTask(s, id, confirmed);
        WithoutKeepsUnique(s.tasks, id);
        forall i | 0 <= i < |r.tasks| ensures r.tasks[i].handle < r.nextHandle {
          assert r.tasks[i] in s.tasks;
        }
      }
    case ConfirmReset(confirmed) =>
  }

  /** An `active` task is always the current task of a running session. */
  predicate ActiveOnlyCurrent(s: AppState)
  {
    forall i :: 0 <= i < |s.tasks| && s.tasks[i].status == Active ==>
      s.isActive && s.timerRunning && s.currentTask == Some(s.tasks[i].handle)
  }

  predicate AtMostOneActive(ts: seq<Task>)
  {
    forall i, j :: 0 <= i < j < |ts| && ts[i].status == Active ==> ts[j].status != Active
  }

  /** The order the dialogs impose on a user: a task is picked only while no session
      is running (the source itself does not check this), and the rating dialog, which
      appears only once the interval has been cleared, is answered only then. */
  predicate Disciplined(s: AppState, e: Event)
  {
    match e
    case ClickSelect(_) => !s.isActive
    case SubmitRating(_, _) => !s.timerRunning
    case SkipRating => !s.timerRunning
    case _ => true
  }

  lemma OneActiveFromInvariants(s: AppState)
    requires Valid(s) && ActiveOnlyCurrent(s)
    ensures AtMostOneActive(s.tasks)
  {
  }

  /** Writing a non-active status through the current task's reference leaves no
      task active. */
  lemma RestampedClearsActive(s: AppState, tasks: seq<Task>, h: Handle, st: Status)
    requires ActiveOnlyCurrent(s) && Restamped(s.tasks, tasks, h, st)
    requires st != Active && s.currentTask == Some(h)
    ensures forall i :: 0 <= i < |tasks| ==> tasks[i].status != Active
  {
    forall i | 0 <= i < |tasks| ensures tasks[i].status != Active {
      if s.tasks[i].handle != h {
        assert tasks[i] == s.tasks[i];
      }
    }
  }

  /** Saving the task form never creates an `active` task: an edit resets its task to
      pending and an added task starts pending. */
  lemma SaveKeepsActiveOnlyCurrent(s: AppState, editing: Option<int>, form: TaskStore.TaskForm)
    requires ActiveOnlyCurrent(s)
    ensures ActiveOnlyCurrent(Step(s, SubmitTaskForm(editing, form)))
  {
    var saved := TaskStore.SaveTask(s, editing, form);
    if saved.Success? {
      var r := saved.value;
      assert Step(s, SubmitTaskForm(editing, form)) == r;
      forall i | 0 <= i < |r.tasks| && r.tasks[i].status == Active
        ensures r.isActive && r.timerRunning && r.currentTask == Some(r.tasks[i].handle)
      {
        if editing.Some? {
          var k := FindById(s.tasks, editing.value).value;
          assert i != k && r.tasks[i] == s.tasks[i];
        } else {
          assert i < |s.tasks| && r.tasks[i] == s.tasks[i];
        }
      }
    }
  }

  /** Under that discipline every event keeps `active` confined to the current task. */
  lemma DisciplinedStepKeepsActiveOnlyCurrent(s: AppState, e: Event)
    requires ActiveOnlyCurrent(s) && Disciplined(s, e)
    ensures ActiveOnlyCurrent(Step(s, e))
  {
    var r := Step(s, e);
    match e
    case ClickSelect(id) =>
    case ClickDuration(minutes) =>
    case CancelDuration =>
    case ConfirmDuration =>
      if s.currentTask.Some? {
        forall i | 0 <= i < |r.tasks| && r.tasks[i].status == Active
          ensures r.isActive && r.timerRunning && r.currentTask == Some(r.tasks[i].handle)
        {
          if s.tasks[i].handle != s.currentTask.value {
            assert r.tasks[i] == s.tasks[i];
          }
        }
      }
    case TimerFires(now) =>
      if s.timerRunning && !s.isPaused && s.timeLeft == 1 {
        if s.currentTask.Some? {
          RestampedClearsActive(s, r.tasks, s.currentTask.value, Completed);
        }
      }
    case ClickPause =>
    case ClickSkip =>
      if s.isActive && s.currentTask.Some? {
        RestampedClearsActive(s, r.tasks, s.currentTask.value, Pending);
      }
    case ClickComplete(now) =>
      if s.isActive && s.currentTask.Some? {
        RestampedClearsActive(s, r.tasks, s.currentTask.value, Completed);
      }
    case SubmitRating(rating, notes) =>
    case SkipRating =>
    case SubmitTaskForm(editing, form) =>
      SaveKeepsActiveOnlyCurrent(s, editing, form);
    case ConfirmDelete(id, confirmed) =>
      forall i | 0 <= i < |r.tasks| && r.tasks[i].status == Active
        ensures r.isActive && r.timerRunning && r.currentTask == Some(r.tasks[i].handle)
      {
        assert r.tasks[i] in s.tasks;
      }
    case ConfirmReset(confirmed) =>
  }

  /** Every event of `es` respects the discipline in the state it arrives in. */
  predicate DisciplinedRun(s: AppState, es: seq<Event>)
    decreases |es|
  {
    |es| == 0 || (Disciplined(s, es[0]) && DisciplinedRun(Step(s, es[0]), es[1..]))
  }

  /** From any valid state with no stray `active` task, a disciplined run keeps the
      invariant and never has two active tasks. */
  lemma {:induction false} DisciplinedRunOneActive(s: AppState, es: seq<Event>)
    requires Valid(s) && ActiveOnlyCurrent(s) && DisciplinedRun(s, es)
    ensures Valid(Run(s, es)) && ActiveOnlyCurrent(Run(s, es))
    ensures AtMostOneActive(Run(s, es).tasks)
    decreases |es|
  {
    if |es| > 0 {
      StepKeepsValid(s, es[0]);
      DisciplinedStepKeepsActiveOnlyCurrent(s, es[0]);
      DisciplinedRunOneActive(Step(s, es[0]), es[1..]);
    } else {
      OneActiveFromInvariants(s);
    }
  }

  /** In particular from the start-up state. */
  lemma OneActiveFromStart(es: seq<Event>)
    requires DisciplinedRun(Init(), es)
    ensures AtMostOneActive(Run(Init(), es).tasks)
  {
    DisciplinedRunOneActive(Init(), es);
  }

  /** Without the discipline the source lets two tasks be active: while task `i` runs,
      picking another selectable task `j` and starting again leaves both active. */
  lemma SelectDuringSessionTwoActive(s: AppState, i: nat, j: nat)
    requires Valid(s) && s.isActive
    requires i < |s.tasks| && j < |s.tasks| && i != j
    requires s.tasks[i].status == Active && s.currentTask == Some(s.tasks[i].handle)
    requires s.tasks[j].status != Completed
    ensures var r := Step(Step(s, ClickSelect(s.tasks[j].id)), ConfirmDuration);
            r.tasks[i].status == Active && r.tasks[j].status == Active && r.isActive
  {
    assert FindById(s.tasks, s.tasks[j].id) == Some(j);
    var picked := Step(s, ClickSelect(s.tasks[j].id));
    assert picked.currentTask == Some(s.tasks[j].handle);
    var r := Step(picked, ConfirmDuration);
    assert r.tasks[i] == s.tasks[i];
  }

  /** Deleting the task of a running session is not refused: the engine keeps running
      on an object that is no longer listed, and completing it records a session while
      changing no listed task. */
  lemma DeleteRunningTask(s: AppState, i: int, now: int)
    requires Valid(s) && s.isActive && 0 <= i < |s.tasks| && s.currentTask == Some(s.tasks[i].handle)
    ensures TaskStore.DeleteTask(s, s.tasks[i].id, true).isActive
    ensures TaskStore.DeleteTask(s, s.tasks[i].id, true).currentTask == s.currentTask
    ensures forall t :: t in TaskStore.DeleteTask(s, s.tasks[i].id, true).tasks ==> Some(t.handle) != s.currentTask
    ensures SessionEngine.CompleteSession(TaskStore.DeleteTask(s, s.tasks[i].id, true), now).tasks
            == TaskStore.DeleteTask(s, s.tasks[i].id, true).tasks
    ensures |SessionEngine.CompleteSession(TaskStore.DeleteTask(s, s.tasks[i].id, true), now).sessions| == |s.sessions| + 1
  {
    var d := TaskStore.DeleteTask(s, s.tasks[i].id, true);
    forall t | t in d.tasks ensures Some(t.handle) != s.currentTask {
      assert t in s.tasks && t.id != s.tasks[i].id;
      var j :| 0 <= j < |s.tasks| && s.tasks[j] == t;
      assert j != i;
    }
    var c := SessionEngine.CompleteSession(d, now);
    assert Restamped(d.tasks, c.tasks, s.currentTask.value, Completed);
    forall k | 0 <= k < |d.tasks| ensures c.tasks[k] == d.tasks[k] {
      assert d.tasks[k] in d.tasks;
    }
  }

  /** Resetting with confirmation empties the history, so the average focus shows
      `'-'`, the rate 0% and the streak 1. */
  lemma ResetClearsAnalytics(s: AppState, hour: int)
    ensures var a := Analytics.Analyze(TaskStore.ResetTasks(s, true), hour);
            a.avgFocus.None? && a.completionRate == 0 && a.studyStreak == 1
  {
  }
}

=== FILE: countdown.dfy ===
/** Runs of the one-second interval: what a started session looks like after any
    number of ticks (app.js:270-298, 343-357). */
module Countdown {
  import opened Common
  import opened Model
  import opened SessionEngine

  /** The state after the interval has fired once for each timestamp in `clock`. */
  function Ticks(s: AppState, clock: seq<int>): AppState
    decreases |clock|
  {
    if |clock| == 0 then s else Ticks(Tick(s, clock[0]), clock[1..])
  }

  /** The interval is scheduled, not paused, and has a task to complete. */
  predicate Counting(s: AppState)
  {
    s.timerRunning && !s.isPaused && s.currentTask.Some?
  }

  /** Once the interval is cleared, ticks change nothing: completion cannot repeat. */
  lemma {:induction false} TicksWhenStopped(s: AppState, clock: seq<int>)
    requires !s.timerRunning
    ensures Ticks(s, clock) == s
    decreases |clock|
  {
    if |clock| > 0 {
      TicksWhenStopped(Tick(s, clock[0]), clock[1..]);
    }
  }

  /** Any run of ticks adds at most one record, and only while the interval runs: the
      tick that adds it also stops the interval. */
  lemma {:induction false} TicksAtMostOneRecord(s: AppState, clock: seq<int>)
    ensures |s.sessions| <= |Ticks(s, clock).sessions| <= |s.sessions| + (if s.timerRunning then 1 else 0)
    ensures |Ticks(s, clock).sessions| > |s.sessions| ==> !Ticks(s, clock).timerRunning
    decreases |clock|
  {
    if |clock| > 0 {
      var next := Tick(s, clock[0]);
      TicksAtMostOneRecord(next, clock[1..]);
      if |next.sessions| > |s.sessions| {
        TicksWhenStopped(next, clock[1..]);
      }
    }
  }

  /** While paused, ticks change nothing. */
  lemma {:induction false} TicksWhenPaused(s: AppState, clock: seq<int>)
    requires s.isPaused
    ensures Ticks(s, clock) == s
    decreases |clock|
  {
    if |clock| > 0 {
      TicksWhenPaused(Tick(s, clock[0]), clock[1..]);
    }
  }

  /** Before the count reaches zero each tick takes exactly one second off and
      nothing else changes. */
  lemma {:induction false} TicksBeforeZero(s: AppState, clock: seq<int>)
    requires Counting(s) && |clock| < s.timeLeft
    ensures Ticks(s, clock) == s.(timeLeft := s.timeLeft - |clock|)
    decreases |clock|
  {
    if |clock| > 0 {
      var next := Tick(s, clock[0]);
      assert next == s.(timeLeft := s.timeLeft - 1);
      TicksBeforeZero(next, clock[1..]);
    }
  }

  /** The tick that brings the count to zero completes the session, stamped with that
      tick's time, and every later tick is ignored. */
  lemma {:induction false} TicksReachZero(s: AppState, clock: seq<int>)
    requires Counting(s) && 0 < s.timeLeft <= |clock|
    ensures Ticks(s, clock) == SessionComplete(s.(timeLeft := 0), clock[s.timeLeft - 1])
    decreases |clock|
  {
    var next := Tick(s, clock[0]);
    if s.timeLeft == 1 {
      assert next == SessionComplete(s.(timeLeft := 0), clock[0]);
      TicksWhenStopped(next, clock[1..]);
    } else {
      assert next == s.(timeLeft := s.timeLeft - 1);
      assert clock[1..][next.timeLeft - 1] == clock[s.timeLeft - 1];
      TicksReachZero(next, clock[1..]);
      assert next.(timeLeft := 0) == s.(timeLeft := 0);
    }
  }

  /** A session started for `N` minutes (N > 0) runs for exactly N*60 ticks. Before
      that the count is positive and nothing is recorded. */
  lemma StartedSessionCounting(s: AppState, clock: seq<int>)
    requires s.currentTask.Some? && s.selectedDuration > 0
    requires |clock| < s.selectedDuration * 60
    ensures Ticks(StartSession(s), clock).timeLeft == s.selectedDuration * 60 - |clock| > 0
    ensures Ticks(StartSession(s), clock).sessions == s.sessions
    ensures Ticks(StartSession(s), clock).timerRunning
  {
    TicksBeforeZero(StartSession(s), clock);
  }

  /** What the completing tick leaves behind, for any counting state. */
  lemma TicksCompletion(t: AppState, clock: seq<int>)
    requires Counting(t) && 0 < t.timeLeft <= |clock|
    ensures Ticks(t, clock).timeLeft == 0 && !Ticks(t, clock).timerRunning
    ensures Ticks(t, clock).isActive == t.isActive
    ensures Ticks(t, clock).sessions ==
            t.sessions + [Session(t.currentTask.value, t.selectedDuration, clock[t.timeLeft - 1], None, None)]
    ensures Restamped(t.tasks, Ticks(t, clock).tasks, t.currentTask.value, Completed)
  {
    TicksReachZero(t, clock);
  }

  /** From the N*60-th tick on, the count is 0, the interval is stopped, the engine
      is still active (the rating dialog is up), and exactly one unrated record has
      been appended. Its duration is the default 25, not N, because
      `selectedDuration` was reset when the session started. */
  lemma StartedSessionCompletes(s: AppState, clock: seq<int>)
    requires s.currentTask.Some? && s.selectedDuration > 0
    requires |clock| >= s.selectedDuration * 60
    ensures Ticks(StartSession(s), clock).timeLeft == 0
    ensures !Ticks(StartSession(s), clock).timerRunning && Ticks(StartSession(s), clock).isActive
    ensures Ticks(StartSession(s), clock).sessions ==
            s.sessions + [Session(s.currentTask.value, DefaultDuration, clock[s.selectedDuration * 60 - 1], None, None)]
  {
    var started := StartSession(s);
    assert started.timeLeft == s.selectedDuration * 60 >= 60;
    TicksCompletion(started, clock);
  }

  /** By then the session's task, and no other, is marked completed. */
  lemma StartedSessionTaskCompleted(s: AppState, clock: seq<int>)
    requires s.currentTask.Some? && s.selectedDuration > 0
    requires |clock| >= s.selectedDuration * 60
    ensures Restamped(s.tasks, Ticks(StartSession(s), clock).tasks, s.currentTask.value, Completed)
  {
    var started := StartSession(s);
    assert started.timeLeft == s.selectedDuration * 60 >= 60;
    TicksCompletion(started, clock);
    RestampedTwice(s.tasks, started.tasks, Ticks(started, clock).tasks, s.currentTask.value, Active, Completed);
  }
}

=== FILE: model.dfy ===
/** The records the app keeps in memory (app.js:4-64): study tasks, finished-session
    records, and the state of the one-session countdown engine. */
module Model {
  import opened Common

  /** Minutes a session lasts unless another duration is picked; also the value
      `selectedDuration` is put back to whenever a dialog closes or a session ends. */
  const DefaultDuration: int := 25

  datatype Status = Pending | Active | Completed

  datatype Difficulty = Easy | Medium | Hard

  /** Identity of a task OBJECT. The source keeps `currentTask` and each session's
      `task` as references to task objects, so a status write through them reaches the
      list entry that is the same object, and none once that object has been deleted
      from the list, even if a later task reuses its id. */
  type Handle = nat

  datatype Task = Task(
    handle: Handle,
    id: int,
    name: string,
    subject: string,
    difficulty: Difficulty,
    duration: int,
    status: Status,
    tip: string)

  /** One entry of `sessions` (app.js:352-357, 369-370). `duration` is whatever
      `selectedDuration` held at completion; `notes` is absent until a rating is saved. */
  datatype Session = Session(
    task: Handle,
    duration: int,
    completedAt: int,
    focusRating: Option<int>,
    notes: Option<string>)

  /** The fields of `FocusFlowApp` that the core reads and writes. `timerRunning`
      stands for `this.timer != null`: the one-second interval is scheduled. */
  datatype AppState = AppState(
    tasks: seq<Task>,
    sessions: seq<Session>,
    currentTask: Option<Handle>,
    isActive: bool,
    isPaused: bool,
    timeLeft: int,
    selectedDuration: int,
    timerRunning: bool,
    nextHandle: Handle)

  /** `after` is `before` with the status of the object `h` set to `st`, and nothing else changed. */
  predicate Restamped(before: seq<Task>, after: seq<Task>, h: Handle, st: Status)
  {
    && |after| == |before|
    && forall i :: 0 <= i < |before| ==>
         after[i] == if before[i].handle == h then before[i].(status := st) else before[i]
  }

  /** A status assignment through an object reference (`this.currentTask.status = st`). */
  function SetStatus(ts: seq<Task>, h: Handle, st: Status): (r: seq<Task>)
    ensures Restamped(ts, r, h, st)
  {
    if |ts| == 0 then []
    else [if ts[0].handle == h then ts[0].(status := st) else ts[0]] + SetStatus(ts[1..], h, st)
  }

  /** A second status write through the same reference overrides the first. */
  lemma RestampedTwice(a: seq<Task>, b: seq<Task>, c: seq<Task>, h: Handle, st1: Status, st2: Status)
    requires Restamped(a, b, h, st1) && Restamped(b, c, h, st2)
    ensures Restamped(a, c, h, st2)
  {
    forall i | 0 <= i < |a|
      ensures c[i] == if a[i].handle == h then a[i].(status := st2) else a[i]
    {
      assert b[i].handle == a[i].handle;
    }
  }

  /** `tasks.find(t => t.id === id)`: the position of the first task with that id. */
  function FindById(ts: seq<Task>, id: int): (r: Option<nat>)
    ensures r.Some? ==> r.value < |ts| && ts[r.value].id == id
    ensures r.Some? ==> forall j :: 0 <= j < r.value ==> ts[j].id != id
    ensures r.None? <==> forall j :: 0 <= j < |ts| ==> ts[j].id != id
  {
    if |ts| == 0 then None
    else if ts[0].id == id then Some(0)
    else match FindById(ts[1..], id)
      case None => None
      case Some(k) => Some(k + 1)
  }

  predicate UniqueHandles(ts: seq<Task>)
  {
    forall i, j :: 0 <= i < j < |ts| ==> ts[i].handle != ts[j].handle
  }

  predicate UniqueIds(ts: seq<Task>)
  {
    forall i, j :: 0 <= i < j < |ts| ==> ts[i].id != ts[j].id
  }

  /** The engine fields as `resetSession` leaves them (app.js:387-391). */
  predicate Idle(s: AppState)
  {
    && !s.isActive
    && !s.isPaused
    && s.currentTask.None?
    && s.timeLeft == 0
    && s.selectedDuration == DefaultDuration
  }

  /** A seeded task: object `h`, id `h + 1`, pending. */
  function Seed(h: Handle, name: string, subject: string, difficulty: Difficulty, duration: int, tip: string): (t: Task)
    ensures t.handle == h && t.id == h + 1 && t.status == Pending
  {
    Task(h, h + 1, name, subject, difficulty, duration, Pending, tip)
  }

  /** The five tasks seeded by the constructor (app.js:18-64), one object each. */
  function SeedTasks(): (r: seq<Task>)
    ensures |r| == 5
    ensures forall i :: 0 <= i < |r| ==> r[i].handle == i && r[i].id == i + 1 && r[i].status == Pending
  {
    [ Seed(0, PhysicsName, "Physics", Hard, 60, PhysicsTip),
      Seed(1, ChemistryName, "Chemistry", Medium, 45, ChemistryTip),
      Seed(2, CalculusName, "Mathematics", Medium, 25, CalculusTip),
      Seed(3, BiologyName, "Biology", Easy, 30, BiologyTip),
      Seed(4, MockTestName, "IOQM", Hard, 90, MockTestTip) ]
  }

  const PhysicsName: string := "Physics Problem Set Ch. 12"
  const PhysicsTip: string :=
    "Break complex problems into smaller steps. Physics flows when you understand the fundamentals!"
  const ChemistryName: string := "Organic Chemistry Reactions"
  const ChemistryTip: string := "Visualize molecular movements. Chemistry is like a dance of atoms!"
  const CalculusName: string := "Calculus Integration Practice"
  const CalculusTip: string :=
    "Integration is about finding areas under curves. Each problem builds your intuition!"
  const BiologyName: string := "Cell Biology Review"
  const BiologyTip: string := "Think of cells as tiny factories. Each organelle has a specific job to do!"
  const MockTestName: string := "IOQM Mock Test Analysis"
  const MockTestTip: string := "Analyze your mistakes thoroughly. Each error is a learning opportunity!"

  /** The state right after the constructor (app.js:7-14): idle, no interval, no history. */
  function Init(): (r: AppState)
    ensures Idle(r) && !r.timerRunning && |r.sessions| == 0
    ensures |r.tasks| == 5 && UniqueHandles(r.tasks) && UniqueIds(r.tasks)
    ensures forall i :: 0 <= i < |r.tasks| ==> r.tasks[i].status == Pending && r.tasks[i].handle < r.nextHandle
  {
    AppState(SeedTasks(), [], None, false, false, 0, DefaultDuration, false, 5)
  }
}

=== FILE: session_engine.dfy ===
/** The session engine: staging a task, starting, ticking, pausing, skipping and
    completing a countdown, and rating the finished session (app.js:254-409, 543-548).
    Each command is one transition of `AppState`; the one-second interval callback is
    the `Tick` step. Where the source dereferences a `null` current task it throws
    and the command stops half-way; those branches keep the writes made before the throw. */
module SessionEngine {
  import opened Common
  import opened Model

  /** `selectTask` (app.js:254-258): stage the first task with that id unless there is
      none or it is completed. Nothing checks whether a session is already running. */
  function SelectTask(s: AppState, id: int): (r: AppState)
    ensures r == s.(currentTask := r.currentTask)
    ensures (forall k :: 0 <= k < |s.tasks| ==> s.tasks[k].id != id) ==> r == s
    ensures forall k :: 0 <= k < |s.tasks| && s.tasks[k].id == id && (forall j :: 0 <= j < k ==> s.tasks[j].id != id) ==>
              r.currentTask == if s.tasks[k].status == Completed then s.currentTask else Some(s.tasks[k].handle)
  {
    match FindById(s.tasks, id)
    case None => s
    case Some(k) => if s.tasks[k].status == Completed then s else s.(currentTask := Some(s.tasks[k].handle))
  }

  /** A click on a duration option (app.js:158-165). */
  function ChooseDuration(s: AppState, minutes: int): (r: AppState)
    ensures r == s.(selectedDuration := minutes)
  {
    s.(selectedDuration := minutes)
  }

  /** The state part of `closeDurationModal` (app.js:543-548): the chosen duration is
      forgotten; a staged task stays staged. */
  function CloseDurationModal(s: AppState): (r: AppState)
    ensures r == s.(selectedDuration := DefaultDuration)
  {
    s.(selectedDuration := DefaultDuration)
  }

  /** `startSession` (app.js:270-283). The countdown length is read before
      `closeDurationModal` puts `selectedDuration` back to the default, and `startTimer`
      cancels any earlier interval before scheduling the new one. */
  function StartSession(s: AppState): (r: AppState)
    ensures s.currentTask.None? ==> r == s
    ensures s.currentTask.Some? ==>
      && r.timeLeft == s.selectedDuration * 60
      && r.isActive && !r.isPaused && r.timerRunning
      && r.selectedDuration == DefaultDuration
      && r.currentTask == s.currentTask && r.sessions == s.sessions && r.nextHandle == s.nextHandle
      && Restamped(s.tasks, r.tasks, s.currentTask.value, Active)
  {
    match s.currentTask
    case None => s
    case Some(h) =>
      var started := s.(timeLeft := s.selectedDuration * 60, isActive := true, isPaused := false,
                        tasks := SetStatus(s.tasks, h, Active));
      CloseDurationModal(started).(timerRunning := true)
  }

  /** `sessionComplete` (app.js:343-361): stop the interval, mark the current task
      completed and record an unrated session of `selectedDuration` minutes finished at
      `now`. The engine stays active until the rating dialog closes. */
  function SessionComplete(s: AppState, now: int): (r: AppState)
    ensures !r.timerRunning
    ensures r.isActive == s.isActive && r.isPaused == s.isPaused && r.currentTask == s.currentTask
    ensures r.timeLeft == s.timeLeft && r.selectedDuration == s.selectedDuration && r.nextHandle == s.nextHandle
    ensures s.currentTask.Some? ==>
      && Restamped(s.tasks, r.tasks, s.currentTask.value, Completed)
      && r.sessions == s.sessions + [Session(s.currentTask.value, s.selectedDuration, now, None, None)]
    ensures s.currentTask.None? ==> r.tasks == s.tasks && r.sessions == s.sessions
  {
    var stopped := s.(timerRunning := false);
    match stopped.currentTask
    case None => stopped
    case Some(h) =>
      stopped.(tasks := SetStatus(stopped.tasks, h, Completed),
               sessions := stopped.sessions + [Session(h, stopped.selectedDuration, now, None, None)])
  }

  /** The body of the one-second interval (app.js:288-298). */
  function Tick(s: AppState, now: int): (r: AppState)
    // the callback's guard: without a running, unpaused, positive count nothing happens
    ensures !(s.timerRunning && !s.isPaused && s.timeLeft > 0) ==> r == s
    // the count drops by exactly one, and only while running, unpaused and positive
    ensures r.timeLeft == if s.timerRunning && !s.isPaused && s.timeLeft > 0 then s.timeLeft - 1 else s.timeLeft
    ensures s.timeLeft >= 0 ==> r.timeLeft >= 0
    // the tick that reaches zero is the one that completes the session and stops the interval
    ensures r.timerRunning <==> s.timerRunning && !(!s.isPaused && s.timeLeft == 1)
    ensures |r.sessions| == |s.sessions| + if s.timerRunning && !s.isPaused && s.timeLeft == 1 && s.currentTask.Some? then 1 else 0
    ensures s.timerRunning && !s.isPaused && s.timeLeft > 1 ==> r == s.(timeLeft := s.timeLeft - 1)
    ensures s.timerRunning && !s.isPaused && s.timeLeft == 1 ==> r == SessionComplete(s.(timeLeft := 0), now)
  {
    if !s.timerRunning || s.isPaused || s.timeLeft <= 0 then s
    else
      var counted := s.(timeLeft := s.timeLeft - 1);
      if counted.timeLeft == 0 then SessionComplete(counted, now) else counted
  }

  /** `togglePause` (app.js:319-322). */
  function TogglePause(s: AppState): (r: AppState)
    ensures !s.isActive ==> r == s
    ensures s.isActive ==> r.isPaused != s.isPaused && r == s.(isPaused := r.isPaused)
  {
    if !s.isActive then s else s.(isPaused := !s.isPaused)
  }

  /** Pausing is its own inverse: two toggles give back the state. */
  lemma TogglePauseTwice(s: AppState)
    ensures TogglePause(TogglePause(s)) == s
  {
  }

  /** `resetSession` (app.js:386-391). It does not stop the interval. */
  function ResetSession(s: AppState): (r: AppState)
    ensures Idle(r)
    ensures r.tasks == s.tasks && r.sessions == s.sessions
    ensures r.timerRunning == s.timerRunning && r.nextHandle == s.nextHandle
  {
    s.(isActive := false, isPaused := false, currentTask := None, timeLeft := 0, selectedDuration := DefaultDuration)
  }

  /** `skipSession` (app.js:329-335): abandon the running session, returning its task
      to pending without recording anything. */
  function SkipSession(s: AppState): (r: AppState)
    ensures !s.isActive ==> r == s
    ensures s.isActive && s.currentTask.Some? ==>
      && Idle(r) && !r.timerRunning
      && r.sessions == s.sessions && r.nextHandle == s.nextHandle
      && Restamped(s.tasks, r.tasks, s.currentTask.value, Pending)
    ensures s.isActive && s.currentTask.None? ==> r == s.(timerRunning := false)
  {
    if !s.isActive then s
    else
      var stopped := s.(timerRunning := false);
      match stopped.currentTask
      case None => stopped
      case Some(h) => ResetSession(stopped.(tasks := SetStatus(stopped.tasks, h, Pending)))
  }

  /** `completeSession` (app.js:337-341): the "complete now" button. */
  function CompleteSession(s: AppState, now: int): (r: AppState)
    ensures !s.isActive ==> r == s
    ensures s.isActive ==> r == SessionComplete(s, now)
    ensures s.isActive && s.currentTask.Some? ==>
      && r.isActive && !r.timerRunning && r.currentTask == s.currentTask
      && r.sessions == s.sessions + [Session(s.currentTask.value, s.selectedDuration, now, None, None)]
      && Restamped(s.tasks, r.tasks, s.currentTask.value, Completed)
  {
    if !s.isActive then s else SessionComplete(s, now)
  }

  /** `closeSessionModal` (app.js:378-384): the rating dialog is dismissed without a
      rating, so the last record stays unrated. */
  function CloseSessionModal(s: AppState): (r: AppState)
    ensures Idle(r) && r.tasks == s.tasks && r.sessions == s.sessions
    ensures r.timerRunning == s.timerRunning && r.nextHandle == s.nextHandle
  {
    ResetSession(s)
  }

  /** `saveSessionRating` (app.js:363-376): the slider value and notes are written onto
      the last record, whichever it is and whether or not it was rated already; then
      the dialog closes and the engine is reset. */
  function SaveSessionRating(s: AppState, rating: int, notes: string): (r: AppState)
    ensures |r.sessions| == |s.sessions|
    ensures forall i :: 0 <= i < |s.sessions| - 1 ==> r.sessions[i] == s.sessions[i]
    ensures |s.sessions| > 0 ==>
      r.sessions[|s.sessions| - 1] == s.sessions[|s.sessions| - 1].(focusRating := Some(rating), notes := Some(notes))
    ensures Idle(r) && r.tasks == s.tasks && r.timerRunning == s.timerRunning && r.nextHandle == s.nextHandle
  {
    var n := |s.sessions|;
    var rated :=
      if n > 0 then s.(sessions := s.sessions[n - 1 := s.sessions[n - 1].(focusRating := Some(rating), notes := Some(notes))])
      else s;
    ResetSession(CloseSessionModal(rated))
  }

  /** Skip and complete differ exactly in the record: skipping an active session leaves
      the history as it was and the task pending, completing appends one record and
      marks the task completed. */
  lemma SkipVersusComplete(s: AppState, now: int)
    requires s.isActive && s.currentTask.Some?
    ensures SkipSession(s).sessions == s.sessions
    ensures |CompleteSession(s, now).sessions| == |s.sessions| + 1
    ensures forall i :: 0 <= i < |s.tasks| && s.tasks[i].handle == s.currentTask.value ==>
              SkipSession(s).tasks[i].status == Pending && CompleteSession(s, now).tasks[i].status == Completed
  {
  }

  /** A rating given right after a completion lands on the record that completion
      appended; the earlier history is untouched and the engine is idle again. */
  lemma RatingAttachesToNewRecord(s: AppState, now: int, rating: int, notes: string)
    requires s.isActive && s.currentTask.Some?
    ensures SaveSessionRating(CompleteSession(s, now), rating, notes).sessions ==
            s.sessions + [Session(s.currentTask.value, s.selectedDuration, now, Some(rating), Some(notes))]
    ensures Idle(SaveSessionRating(CompleteSession(s, now), rating, notes))
  {
    var c := CompleteSession(s, now);
    var r := SaveSessionRating(c, rating, notes);
    assert |r.sessions| == |s.sessions| + 1;
    forall i | 0 <= i < |s.sessions| + 1
      ensures r.sessions[i] == (s.sessions + [Session(s.currentTask.value, s.selectedDuration, now, Some(rating), Some(notes))])[i]
    {
      if i < |s.sessions| {
        assert r.sessions[i] == c.sessions[i];
      }
    }
  }

  /** A second rating without a new session is not refused: it simply replaces the
      first one on the same record. */
  lemma SecondRatingOverwrites(s: AppState, r1: int, n1: string, r2: int, n2: string)
    ensures SaveSessionRating(SaveSessionRating(s, r1, n1), r2, n2) == SaveSessionRating(s, r2, n2)
  {
    var a := SaveSessionRating(SaveSessionRating(s, r1, n1), r2, n2);
    var b := SaveSessionRating(s, r2, n2);
    assert a.sessions == b.sessions;
  }
}

=== FILE: task_store.dfy ===
/** The task list commands: saving the edit dialog (add or edit), deleting, and
    resetting every task (app.js:483-541). */
module TaskStore {
  import opened Common
  import opened Model

  /** The values the edit dialog hands to `saveTask`, before trimming. */
  datatype TaskForm = TaskForm(name: string, subject: string, difficulty: Difficulty, duration: int, tip: string)

  /** Why a save changed nothing: the name was blank (the source alerts and returns),
      or the task being edited is no longer in the list (the source's
      `Object.assign(undefined, …)` throws before writing anything). */
  datatype StoreError = EmptyName | MissingTask

  /** The code points `String.prototype.trim` removes: the ECMAScript WhiteSpace and
      LineTerminator characters. */
  predicate IsWhitespace(c: char)
  {
    var n := c as int;
    || n == 0x09 || n == 0x0A || n == 0x0B || n == 0x0C || n == 0x0D || n == 0x20
    || n == 0xA0 || n == 0x1680 || (0x2000 <= n <= 0x200A) || n == 0x2028 || n == 0x2029
    || n == 0x202F || n == 0x205F || n == 0x3000 || n == 0xFEFF
  }

  /** Number of whitespace characters at the start of `s`. */
  function LeadingSpace(s: string): (n: nat)
    ensures n <= |s|
    ensures forall i :: 0 <= i < n ==> IsWhitespace(s[i])
    ensures n < |s| ==> !IsWhitespace(s[n])
  {
    if |s| == 0 || !IsWhitespace(s[0]) then 0 else 1 + LeadingSpace(s[1..])
  }

  /** Number of whitespace characters at the end of `s`. */
  function TrailingSpace(s: string): (n: nat)
    ensures n <= |s|
    ensures forall i :: |s| - n <= i < |s| ==> IsWhitespace(s[i])
    ensures n < |s| ==> !IsWhitespace(s[|s| - n - 1])
  {
    if |s| == 0 || !IsWhitespace(s[|s| - 1]) then 0 else 1 + TrailingSpace(s[..|s| - 1])
  }

  /** `String.prototype.trim`: the text between the leading and trailing whitespace. */
  function Trim(s: string): (r: string)
    ensures |r| > 0 ==> !IsWhitespace(r[0]) && !IsWhitespace(r[|r| - 1])
    ensures |r| == 0 <==> forall i :: 0 <= i < |s| ==> IsWhitespace(s[i])
    ensures |r| > 0 ==> LeadingSpace(s) + |r| + TrailingSpace(s) == |s|
    ensures |r| > 0 ==> r == s[LeadingSpace(s)..LeadingSpace(s) + |r|]
  {
    var a := LeadingSpace(s);
    if a == |s| then [] else s[a..|s| - TrailingSpace(s)]
  }

  /** Trimming twice is trimming once. */
  lemma TrimIdempotent(s: string)
    ensures Trim(Trim(s)) == Trim(s)
  {
    var r := Trim(s);
    if |r| > 0 {
      assert LeadingSpace(r) == 0;
      assert TrailingSpace(r) == 0;
    }
  }

  /** `Math.max(...tasks.map(t => t.id), 0)`: the largest id, or 0 for an empty list
      or one whose ids are all negative. */
  function MaxId(ts: seq<Task>): (r: int)
    ensures r >= 0
    ensures forall i :: 0 <= i < |ts| ==> ts[i].id <= r
    ensures r == 0 || exists i :: 0 <= i < |ts| && ts[i].id == r
  {
    if |ts| == 0 then 0
    else
      var rest := MaxId(ts[1..]);
      if ts[0].id > rest then ts[0].id else rest
  }

  /** The fields of an edited task after `Object.assign(task, taskData)`: the form's
      values with name and tip trimmed, and the status put back to pending. */
  function Overwrite(t: Task, form: TaskForm): (r: Task)
    ensures r.handle == t.handle && r.id == t.id && r.status == Pending
    ensures r.name == Trim(form.name) && r.tip == Trim(form.tip)
    ensures r.subject == form.subject && r.difficulty == form.difficulty && r.duration == form.duration
  {
    t.(name := Trim(form.name), subject := form.subject, difficulty := form.difficulty,
       duration := form.duration, tip := Trim(form.tip), status := Pending)
  }

  /** `saveTask` (app.js:483-515). `editing` is the id the dialog was opened for, or
      none when it was opened to add a task. */
  function SaveTask(s: AppState, editing: Option<int>, form: TaskForm): (r: Result<AppState, StoreError>)
    ensures |Trim(form.name)| == 0 <==> r == Failure(EmptyName)
    ensures r.Failure? ==> r.error == EmptyName || (editing.Some? && FindById(s.tasks, editing.value).None?)
    // only the task list and the handle counter can change
    ensures r.Success? ==> r.value == s.(tasks := r.value.tasks, nextHandle := r.value.nextHandle)
    // adding: one new pending task at the end, numbered one past the largest id (or 0),
    // so above every existing id
    ensures r.Success? && editing.None? ==>
      && |r.value.tasks| == |s.tasks| + 1
      && r.value.tasks[..|s.tasks|] == s.tasks
      && var t := r.value.tasks[|s.tasks|];
         && t.status == Pending && t.name == Trim(form.name) && t.tip == Trim(form.tip)
         && t.subject == form.subject && t.difficulty == form.difficulty && t.duration == form.duration
         && t.handle == s.nextHandle && r.value.nextHandle == s.nextHandle + 1
         && t.id == MaxId(s.tasks) + 1
         && forall i :: 0 <= i < |s.tasks| ==> s.tasks[i].id < t.id
    // editing: the first task with that id keeps its identity and id, takes the form's values
    // and becomes pending; every other task is untouched
    ensures editing.Some? && |Trim(form.name)| > 0 ==>
      match FindById(s.tasks, editing.value)
      case None => r == Failure(MissingTask)
      case Some(k) =>
        && r.Success?
        && |r.value.tasks| == |s.tasks|
        && r.value.nextHandle == s.nextHandle
        && r.value.tasks[k].handle == s.tasks[k].handle && r.value.tasks[k].id == s.tasks[k].id
        && r.value.tasks[k].status == Pending
        && r.value.tasks[k].name == Trim(form.name) && r.value.tasks[k].tip == Trim(form.tip)
        && r.value.tasks[k].subject == form.subject && r.value.tasks[k].difficulty == form.difficulty
        && r.value.tasks[k].duration == form.duration
        && forall i :: 0 <= i < |s.tasks| && i != k ==> r.value.tasks[i] == s.tasks[i]
  {
    if |Trim(form.name)| == 0 then Failure(EmptyName)
    else match editing
      case Some(id) =>
        (match FindById(s.tasks, id)
         case None => Failure(MissingTask)
         case Some(k) => Success(s.(tasks := s.tasks[k := Overwrite(s.tasks[k], form)])))
      case None =>
        var added := Task(s.nextHandle, MaxId(s.tasks) + 1, Trim(form.name), form.subject,
                          form.difficulty, form.duration, Pending, Trim(form.tip));
        Success(s.(tasks := s.tasks + [added], nextHandle := s.nextHandle + 1))
  }

  /** `tasks.filter(t => t.id !== id)`. */
  function Without(ts: seq<Task>, id: int): (r: seq<Task>)
    ensures |r| <= |ts|
  {
    if |ts| == 0 then []
    else (if ts[0].id == id then [] else [ts[0]]) + Without(ts[1..], id)
  }

  /** A task survives the filter exactly when it was listed and its id differs. */
  lemma {:induction false} WithoutMembers(ts: seq<Task>, id: int)
    ensures forall t :: t in Without(ts, id) <==> t in ts && t.id != id
    decreases |ts|
  {
    if |ts| > 0 {
      WithoutMembers(ts[1..], id);
      assert ts == [ts[0]] + ts[1..];
    }
  }

  /** Filtering distributes over concatenation: the kept tasks stay in their order. */
  lemma {:induction false} WithoutKeepsOrder(a: seq<Task>, b: seq<Task>, id: int)
    ensures Without(a + b, id) == Without(a, id) + Without(b, id)
    decreases |a|
  {
    if |a| > 0 {
      var head := if a[0].id == id then [] else [a[0]];
      assert Without(a + b, id) == head + Without(a[1..] + b, id) by {
        assert (a + b)[0] == a[0] && (a + b)[1..] == a[1..] + b;
      }
      assert Without(a, id) == head + Without(a[1..], id);
      WithoutKeepsOrder(a[1..], b, id);
      assert head + (Without(a[1..], id) + Without(b, id)) == (head + Without(a[1..], id)) + Without(b, id);
    } else {
      assert a + b == b;
    }
  }

  /** A list without the id comes through the filter unchanged. */
  lemma {:induction false} WithoutAbsent(ts: seq<Task>, id: int)
    requires forall i :: 0 <= i < |ts| ==> ts[i].id != id
    ensures Without(ts, id) == ts
    decreases |ts|
  {
    if |ts| > 0 {
      WithoutAbsent(ts[1..], id);
    }
  }

  /** `deleteTask` (app.js:517-526): when the confirmation is accepted every task with
      that id is removed, whether or not a session is running on it. */
  function DeleteTask(s: AppState, id: int, confirmed: bool): (r: AppState)
    ensures !confirmed ==> r == s
    ensures confirmed ==> forall t :: t in r.tasks <==> t in s.tasks && t.id != id
    // the kept tasks in their original order, each once
    ensures confirmed ==> r.tasks == Without(s.tasks, id)
    ensures r == s.(tasks := r.tasks)
  {
    WithoutMembers(s.tasks, id);
    if confirmed then s.(tasks := Without(s.tasks, id)) else s
  }

  /** Every task's status set to pending, nothing else about it changed. */
  function AllPending(ts: seq<Task>): (r: seq<Task>)
    ensures |r| == |ts|
    ensures forall i :: 0 <= i < |ts| ==> r[i] == ts[i].(status := Pending)
  {
    if |ts| == 0 then [] else [ts[0].(status := Pending)] + AllPending(ts[1..])
  }

  /** `resetTasks` (app.js:532-541): once confirmed, every task is pending again and the
      session history is emptied; the session engine is not touched. */
  function ResetTasks(s: AppState, confirmed: bool): (r: AppState)
    ensures !confirmed ==> r == s
    ensures confirmed ==> |r.sessions| == 0 && |r.tasks| == |s.tasks|
    ensures confirmed ==> forall i :: 0 <= i < |r.tasks| ==> r.tasks[i].status == Pending
    ensures confirmed ==> forall i :: 0 <= i < |r.tasks| ==> r.tasks[i].(status := s.tasks[i].status) == s.tasks[i]
    ensures r == s.(tasks := r.tasks, sessions := r.sessions)
  {
    if confirmed then s.(tasks := AllPending(s.tasks), sessions := []) else s
  }
}

=== FILE: timer_text.dfy ===
/** The `mm:ss` text of the countdown (app.js:301-305), and a reader for it that
    shows the text determines the remaining seconds. */
module TimerText {
  import opened Common

  predicate IsDigit(c: char)
  {
    '0' <= c <= '9'
  }

  predicate AllDigits(s: string)
  {
    forall i :: 0 <= i < |s| ==> IsDigit(s[i])
  }

  function DigitChar(d: int): (c: char)
    requires 0 <= d < 10
    ensures IsDigit(c)
  {
    ('0' as int + d) as char
  }

  function DigitValue(c: char): (d: int)
    requires IsDigit(c)
    ensures 0 <= d < 10
  {
    c as int - '0' as int
  }

  /** `Number.prototype.toString()` of a non-negative integer: decimal digits, no
      leading zero. */
  function NatToString(n: nat): (r: string)
    ensures |r| > 0 && AllDigits(r)
    ensures |r| > 1 ==> r[0] != '0'
    ensures n < 10 ==> |r| == 1
    ensures n < 100 ==> |r| <= 2
  {
    if n < 10 then [DigitChar(n)] else NatToString(n / 10) + [DigitChar(n % 10)]
  }

  /** `Number.prototype.toString()` of any integer: a minus sign before the digits of
      the magnitude when negative. */
  function IntToString(n: int): (r: string)
    ensures |r| > 0
    ensures n >= 0 ==> AllDigits(r)
    ensures n < 0 ==> r[0] == '-' && |r| > 1 && AllDigits(r[1..])
  {
    if n < 0 then "-" + NatToString(-n) else NatToString(n)
  }

  /** `padStart(2, '0')`: zeros in front until the text is two characters long;
      longer text is left alone. */
  function PadStart2(s: string): (r: string)
    ensures |s| >= 2 ==> r == s
    ensures |s| < 2 ==> |r| == 2
    ensures |r| >= |s| && r[|r| - |s|..] == s
    ensures forall i :: 0 <= i < |r| - |s| ==> r[i] == '0'
  {
    if |s| >= 2 then s else if |s| == 1 then "0" + s else "00"
  }

  /** The `%` operator of JavaScript on integers: the remainder carries the sign of
      the dividend (Dafny's `%` never returns a negative value). */
  function JsRem(a: int, b: int): (r: int)
    requires b > 0
    ensures a >= 0 ==> 0 <= r < b
    ensures a < 0 ==> -b < r <= 0
    ensures a >= 0 ==> a == b * (a / b) + r
    ensures a < 0 ==> -a == b * ((-a) / b) - r
  {
    if a >= 0 then a % b else -((-a) % b)
  }

  /** The text `updateTimerDisplay` shows for `t` seconds left: whole minutes
      (`Math.floor`, which Dafny's `/` by a positive divisor agrees with) and the
      JavaScript remainder, each padded to two characters. */
  function FormatTime(t: int): (r: string)
    ensures 0 <= t < 6000 ==> |r| == 5 && r[2] == ':' && AllDigits(r[..2]) && AllDigits(r[3..])
  {
    PadStart2(IntToString(t / 60)) + ":" + PadStart2(IntToString(JsRem(t, 60)))
  }

  /** Position of the first `c` in `s`. */
  function IndexOf(s: string, c: char): (r: Option<nat>)
    ensures r.Some? ==> r.value < |s| && s[r.value] == c
    ensures r.Some? ==> forall i :: 0 <= i < r.value ==> s[i] != c
    ensures r.None? <==> forall i :: 0 <= i < |s| ==> s[i] != c
  {
    if |s| == 0 then None
    else if s[0] == c then Some(0)
    else match IndexOf(s[1..], c)
      case None => None
      case Some(k) => Some(k + 1)
  }

  /** Value of a run of decimal digits, most significant first. */
  function DigitsValue(s: string): nat
    requires AllDigits(s)
  {
    if |s| == 0 then 0 else DigitsValue(s[..|s| - 1]) * 10 + DigitValue(s[|s| - 1])
  }

  /** Reads a clock text back into seconds: one or more digits of minutes, a colon,
      and exactly two digits of seconds below 60. */
  function ParseClock(s: string): (r: Option<int>)
    ensures r.Some? ==> r.value >= 0
  {
    match IndexOf(s, ':')
    case None => None
    case Some(k) =>
      var m, sec := s[..k], s[k + 1..];
      if 0 < |m| && AllDigits(m) && |sec| == 2 && AllDigits(sec) && DigitsValue(sec) < 60
      then Some(DigitsValue(m) * 60 + DigitsValue(sec))
      else None
  }

  lemma {:induction false} NatToStringValue(n: nat)
    ensures DigitsValue(NatToString(n)) == n
    decreases n
  {
    if n >= 10 {
      var x := NatToString(n / 10);
      var s := x + [DigitChar(n % 10)];
      assert s[..|s| - 1] == x;
      NatToStringValue(n / 10);
    }
  }

  /** The text of an integer spells its value: the digits read back to the number, or
      to its magnitude after the minus sign. */
  lemma IntToStringValue(n: int)
    ensures n >= 0 ==> DigitsValue(IntToString(n)) == n
    ensures n < 0 ==> DigitsValue(IntToString(n)[1..]) == -n
  {
    if n >= 0 {
      NatToStringValue(n);
    } else {
      assert IntToString(n)[1..] == NatToString(-n);
      NatToStringValue(-n);
    }
  }

  lemma {:induction false} LeadingZeroValue(s: string)
    requires AllDigits(s)
    ensures AllDigits("0" + s) && DigitsValue("0" + s) == DigitsValue(s)
    decreases |s|
  {
    var z := "0" + s;
    assert AllDigits(z) by {
      forall i | 0 <= i < |z| ensures IsDigit(z[i]) {
        if i > 0 { assert z[i] == s[i - 1]; }
      }
    }
    if |s| > 0 {
      var p := s[..|s| - 1];
      assert z[..|z| - 1] == "0" + p;
      LeadingZeroValue(p);
    }
  }

  lemma PaddedValue(s: string)
    requires AllDigits(s)
    ensures AllDigits(PadStart2(s)) && DigitsValue(PadStart2(s)) == DigitsValue(s)
  {
    if |s| == 1 {
      LeadingZeroValue(s);
    } else if |s| == 0 {
      LeadingZeroValue(s);
      LeadingZeroValue("0");
    }
  }

  /** Reading back a minutes text, a colon and a two-digit seconds text. */
  lemma ParseJoined(a: string, b: string, m: nat, sec: nat)
    requires 0 < |a| && AllDigits(a) && |b| == 2 && AllDigits(b)
    requires DigitsValue(a) == m && DigitsValue(b) == sec < 60
    ensures ParseClock(a + ":" + b) == Some(m * 60 + sec)
  {
    var s := a + ":" + b;
    assert s[|a|] == ':';
    forall i | 0 <= i < |a| ensures s[i] != ':' {
      assert s[i] == a[i] && IsDigit(a[i]);
    }
    assert IndexOf(s, ':') == Some(|a|);
    assert s[..|a|] == a;
    assert s[|a| + 1..] == b;
  }

  /** The text built from a minutes count and a seconds count below 60 reads back
      to the total number of seconds. */
  lemma ClockPartsValue(m: nat, sec: nat)
    requires sec < 60
    ensures ParseClock(PadStart2(NatToString(m)) + ":" + PadStart2(NatToString(sec))) == Some(m * 60 + sec)
  {
    var x, y := NatToString(m), NatToString(sec);
    var a, b := PadStart2(x), PadStart2(y);
    PaddedValue(x);
    PaddedValue(y);
    NatToStringValue(m);
    NatToStringValue(sec);
    ParseJoined(a, b, m, sec);
  }

  /** Round trip: for every non-negative count of seconds the shown text reads back
      to that count, so the display loses nothing. */
  lemma FormatParseRoundTrip(t: int)
    requires t >= 0
    ensures ParseClock(FormatTime(t)) == Some(t)
  {
    var m: nat, sec: nat := t / 60, t % 60;
    var text := PadStart2(NatToString(m)) + ":" + PadStart2(NatToString(sec));
    assert FormatTime(t) == text by {
      assert JsRem(t, 60) == sec;
    }
    assert ParseClock(text) == Some(t) by {
      ClockPartsValue(m, sec);
    }
  }

  /** Different non-negative counts never share a display text. */
  lemma FormatTimeInjective(t1: int, t2: int)
    requires t1 >= 0 && t2 >= 0 && t1 != t2
    ensures FormatTime(t1) != FormatTime(t2)
  {
    FormatParseRoundTrip(t1);
    FormatParseRoundTrip(t2);
  }

  /** With a negative count the JavaScript operators are visible in the text: the
      minutes are floored and the seconds keep the sign, so -61 shows as "-2:-1". */
  lemma NegativeTimeText()
    ensures FormatTime(-61) == "-2:-1"
  {
    assert JsRem(-61, 60) == -1;
    assert NatToString(2) == "2";
    assert NatToString(1) == "1";
    assert IntToString(-2) == "-2";
    assert IntToString(-1) == "-1";
  }
}
